=== FILE: README.md ===
# To-do list state machine

A model of the state logic of a single-page to-do list component. The
component keeps an ordered list of tasks (text, completion flag, due date,
priority), a form buffer for creating or editing a task, an edit target,
a status filter (all, active, completed) and a search query. The model
lifts that logic out of the component as pure transitions on an immutable
`State` record and proves what each transition does to the list, the form
buffer and the derived views.

Modules:

- `JsString` (`jsstring.dfy`): the JavaScript string operations the logic
  depends on: `trim` (with the full ECMAScript white-space and
  line-terminator set), `toLowerCase` (ASCII letters) and `includes`.
- `TaskList` (`tasklist.dfy`): the data model (`Priority`, `Filter`,
  `Task`, `State`) and the four handlers: form submission (create or
  update), toggle-complete, delete and begin-edit. Tasks are addressed by
  their position in the underlying list, as the handlers do.
- `TaskView` (`taskview.dfy`): the filtered list, the underlying positions
  of the rows it shows, the completed count and the progress-bar width.
- `Screen` (`screen.dfy`): the rendered rows and their click handlers. The
  rows are the filtered list, but each row passes its position in the
  filtered list to handlers that index the full list. The module models
  the handlers as written, exhibits the mismatch, and gives corrected
  handlers that translate the row position first.
- `Walkthrough` (`walkthrough.dfy`): a worked session (two tasks added,
  one completed, the `Completed` filter chosen, the shown row deleted) and
  the progress bar for four tasks with one completed.

`handleSubmit` tests `val.trim()` for emptiness but stores `val` untrimmed
(src/App.jsx:31 and 34); `Submit` does the same.

## Model

| member | source | states |
|---|---|---|
| JsString.TrimStart | src/App.jsx:31 | the result is a suffix of the input, everything removed is white space, and the result does not start with white space |
| JsString.TrimEnd | src/App.jsx:31 | the result is a prefix of the input, everything removed is white space, and the result does not end with white space |
| JsString.Trim | src/App.jsx:31 | `trim()` yields the empty string exactly when every character is white space; otherwise the result begins and ends with a non-white-space character |
| JsString.TrimIdempotent | src/App.jsx:31 | trimming an already trimmed string changes nothing |
| JsString.ToLower | src/App.jsx:76 | lower-casing keeps the length, leaves no upper-case ASCII letter, and changes a character only by mapping an upper-case letter to its lower-case form |
| JsString.ToLowerOfLower | src/App.jsx:76 | a string without upper-case ASCII letters is its own lower-case form |
| JsString.ToLowerIdempotent | src/App.jsx:76 | lower-casing twice equals lower-casing once |
| JsString.Includes | src/App.jsx:76 | `includes` is true exactly when the needle occurs at some position of the haystack |
| TaskList.Submit | src/App.jsx:29-52 | an all-white-space text leaves the whole state unchanged; otherwise the form resets to empty text, empty date and Medium with no edit target, filter, query and theme are untouched; creating appends exactly one incomplete task built from the buffer and keeps all earlier tasks; updating keeps the length, puts the new incomplete task at the edit target and keeps every other task |
| TaskList.ToggleComplete | src/App.jsx:54-58 | only the completion flag of the task at `i` changes; its text, due date and priority, every other task and the rest of the state stay as they were |
| TaskList.ToggleTwice | src/App.jsx:54-58 | toggling the same position twice restores the original state |
| TaskList.WithoutPosition | src/App.jsx:61 | filtering out position `i` yields `ts[..i] + ts[i+1..]` when `i` is a position of the list and the list itself otherwise |
| TaskList.Delete | src/App.jsx:60-63 | deleting an in-range position shortens the list by one, keeps the tasks before it and shifts the later ones down by one; an out-of-range position changes nothing |
| TaskList.BeginEdit | src/App.jsx:65-71 | the list and the view settings stay unchanged; the buffer holds the task's text, due date and priority and the edit target is the position |
| TaskList.EditRoundTripResetsCompletion | src/App.jsx:33-44 | beginning an edit and submitting the untouched form writes the same task back in place with its completion reset to false, and clears the form |
| TaskList.SubmitKeepsTextsNotBlank | src/App.jsx:31-47 | if no stored text is blank before a submission, none is blank after it: the guard keeps all-white-space texts out |
| TaskList.OtherOperationsKeepTextsNotBlank | src/App.jsx:54-71 | deleting, toggling and beginning an edit never make a stored text blank |
| TaskList.EditTargetStaysValid | src/App.jsx:40-44 | submitting (on any list, the empty one included) keeps the edit target inside the list, and so do toggling and beginning an edit at any position of the list |
| TaskList.DeleteLeavesEditTargetPastEnd | src/App.jsx:40-47 | deleting the last task while it is being edited leaves the edit target one past the end of the list, and the next submission appends the buffer's task to the remaining tasks instead of replacing one |
| TaskList.DeleteBeforeEditTargetRetargets | src/App.jsx:40-43 | deleting the task being edited, or one before it, while it is not the last task keeps the edit target valid but moves it onto the task that followed the edited one, and the next submission overwrites that task |
| TaskView.SearchIgnoresCase | src/App.jsx:76 | the search answer does not change when the text or the query is lower-cased first |
| TaskView.SearchIsSubstring | src/App.jsx:76 | a non-empty query matches exactly when its lower-cased form occurs at some position of the lower-cased text |
| TaskView.FilteredTasks | src/App.jsx:73-78 | every task of the filtered list passes the status filter and the search, and the filtered list is no longer than the list |
| TaskView.ShownPositions | src/App.jsx:73-78 | the listed positions are strictly increasing, each holds a task that passes both conditions, and every position whose task passes is listed |
| TaskView.FilteredIsShownPositions | src/App.jsx:73-78 | row `k` of the filtered list is the task at the `k`-th shown position, so the filtered list is an order-preserving subsequence of the list |
| TaskView.FilteredMembership | src/App.jsx:73-78 | a task is in the filtered list exactly when it is in the list and passes both conditions |
| TaskView.UnfilteredViewIsIdentity | src/App.jsx:73-78 | with filter `All` and an empty query the filtered list is the whole list and row `k` is underlying position `k` |
| TaskView.FiltersCompose | src/App.jsx:74-76 | filtering by status and then searching the result equals applying both conditions at once |
| TaskView.CompletedCount | src/App.jsx:80 | the completed count never exceeds the number of tasks |
| TaskView.CompletedCountIsCompletedView | src/App.jsx:73-80 | the completed count equals the length of the `Completed` view with an empty query, and added to the length of the `Active` view gives the number of tasks |
| TaskView.CompletedCountCountsCompleted | src/App.jsx:80 | the completed count is the number of positions holding a completed task, and a position is among them exactly when its task is completed |
| TaskView.CompletedCountAfterToggle | src/App.jsx:54-58 | toggling a completed task lowers the count by one and toggling an incomplete one raises it by one |
| TaskView.CompletedCountAfterDelete | src/App.jsx:60-63 | deleting a task lowers the count by one exactly when the deleted task was completed |
| TaskView.CompletedCountAfterCreate | src/App.jsx:33-46 | creating a task leaves the count unchanged |
| TaskView.CompletedCountAfterUpdate | src/App.jsx:33-44 | updating a task lowers the count by one exactly when the replaced task was completed |
| TaskView.ProgressPercent | src/App.jsx:123 | the bar width lies between 0 and 100, is 0 exactly when no task is completed (including the empty list) and is 100 exactly when the list is non-empty and every task is completed |
| Screen.View | src/App.jsx:136 | the rendered list is no longer than the list, and a task is rendered exactly when it is in the list and passes the status filter and the search |
| Screen.Target | src/App.jsx:136-147 | the underlying position of row `k` holds the task shown in that row and exactly `k` rows come from the tasks before it, so it is that row's own position even among equal tasks; it is never smaller than `k` |
| Screen.ClickToggleAsWritten | src/App.jsx:138 | the row position is passed straight to `toggleComplete`: clicking row `k` flips the completion of the task at list position `k`, whichever task the row shows; that task's other fields, every other task and the rest of the state are unchanged |
| Screen.ClickEditAsWritten | src/App.jsx:146 | the row position is passed straight to `handleEdit`: the form is loaded from list position `k` and `k` becomes the edit target, whichever task the row shows; the list, filter, query and theme are unchanged |
| Screen.ClickDeleteAsWritten | src/App.jsx:147 | the row position is passed straight to `handleDelete`: list position `k` is removed, whichever task the row shows; the form, edit target, filter, query and theme are unchanged |
| Screen.AsWrittenActsOnClickedTaskIff | src/App.jsx:136-147 | the toggle and edit handlers as written act on the clicked task exactly when the row position equals its underlying position, which always holds with filter `All` and an empty query (and then delete agrees too) |
| Screen.AsWrittenClickHitsHiddenTask | src/App.jsx:136-147 | with an active task before a completed one and the `Completed` filter on, the one row shows the completed task, but its delete button removes the hidden active task and its toggle completes the hidden task |
| Screen.ClickToggle | src/App.jsx:138 | clicking row `k` flips the completion of exactly the task shown in that row and nothing else |
| Screen.ClickEdit | src/App.jsx:146 | the edit button of row `k` loads the task shown in that row, makes that row's own underlying position the edit target, and leaves the list, filter, query and theme unchanged; the next submission replaces exactly the task at that position |
| Screen.ClickDelete | src/App.jsx:147 | the delete button of row `k` removes exactly the task shown in that row, and the rendered list loses exactly row `k` with the other rows in order |
| Walkthrough.AddFirst | src/App.jsx:29-52 | adding "Buy milk" to the empty list yields that one incomplete task, a cleared form, no completed task and an empty progress bar |
| Walkthrough.AddSecond | src/App.jsx:29-52 | adding "Walk dog" next appends it after "Buy milk" |
| Walkthrough.CompleteFirst | src/App.jsx:54-58 | completing the first of the two tasks gives a completed count of 1 and a bar half full |
| Walkthrough.DeleteShownRow | src/App.jsx:136-147 | under the `Completed` filter the one row shows "Buy milk", and deleting it through either handler leaves only "Walk dog" |
| Walkthrough.QuarterProgress | src/App.jsx:123 | any four tasks of which exactly one is completed fill a quarter of the progress bar |
| Walkthrough.QuarterProgressFirst | src/App.jsx:123 | four tasks of which only the first is completed have a completed count of 1 and fill a quarter of the bar |

## Findings

| source | as written | input that shows it | evidently intended | confidence | as-written member | corrected member |
|---|---|---|---|---|---|---|
| src/App.jsx:136-147 | each rendered row passes its position in the filtered list to `toggleComplete`, `handleEdit` and `handleDelete`, which index the full list | tasks [Buy milk (active), Walk dog (completed)] with the `Completed` filter: the only row shows Walk dog, but its delete button removes Buy milk and clicking it completes Buy milk | a row's buttons act on the task shown in that row | high; not executed | Screen.AsWrittenClickHitsHiddenTask | Screen.ClickDelete |

The as-written handlers are `Screen.ClickToggleAsWritten`,
`Screen.ClickEditAsWritten` and `Screen.ClickDeleteAsWritten`; the
corrected ones are `Screen.ClickToggle`, `Screen.ClickEdit` and
`Screen.ClickDelete`, which translate the row position through
`Screen.Target`. `Screen.AsWrittenActsOnClickedTaskIff` shows the two agree
exactly when no filter or search moves the row away from its underlying
position.

## Left out

- Loading tasks and the theme flag from `localStorage` at start-up and writing them back after every change (src/App.jsx:14-27): browser storage and JSON encoding are I/O. The model starts from `TaskList.Initial`, the state before anything is loaded.
- The dark-mode button (src/App.jsx:86), `preventDefault` (src/App.jsx:30), CSS classes and the markup: presentation with no logic beyond a flag flip.
- The setters behind the text, date, priority, filter and search inputs are plain record updates (`Walkthrough.Type`, `.(filter := …)`) and carry no contract.
- TaskView.ProgressPercent: computes with exact real numbers rather than IEEE doubles, so rounding of the percentage is not modelled; the empty list gives 0 as the code's `NaN || 0` does.
- JsString.ToLower: lower-cases the ASCII letters only; the full Unicode case mapping of `toLowerCase` is not modelled, so the search is case-insensitive for ASCII letters only.
- TaskList.Submit: requires the edit target to be at most the list's length. A target exactly at the length appends (a JavaScript array assignment one past the end); a target further out would leave holes in the array, which the model does not represent. Such a target arises only after two or more deletions during an edit.
- TaskList.ToggleComplete and TaskList.BeginEdit: require an in-range position because the code dereferences `tasks[index]` and throws on a position past the end. Positions coming from rendered rows are always in range, since the filtered list is never longer than the list.
- Missing `due` or `priority` fields, which only stored data could produce: the defaults `task.due || ''` and `task.priority || 'Medium'` in `handleEdit` never apply because every modelled task has both fields, and `|| ''` is the identity on strings.
- JavaScript strings are sequences of UTF-16 code units; the model's strings are sequences of Unicode scalar values. The two agree on well-formed text (every white-space character lies in the Basic Multilingual Plane, and a well-formed needle cannot match inside a surrogate pair), but a string holding a lone surrogate cannot be represented.
- The priority selector's option strings are the datatype `Priority`; no other value can reach the state.
- `toggleComplete` mutates the task object shared with the previous state through a shallow copy (src/App.jsx:55-56); the model uses value semantics, which gives the same resulting list.

=== FILE: jsstring.dfy ===
/**
  The three JavaScript string operations the task list relies on:
  `String.prototype.trim` (the empty-text guard of a submission),
  `toLowerCase` (case-insensitive search) and `includes` (substring search).
  Strings are sequences of Unicode scalar values, not UTF-16 code units.
 */
module JsString {

  /** A WhiteSpace or LineTerminator code point of the ECMAScript grammar:
      exactly the characters `trim` removes from either end of a string. */
  predicate IsWhitespace(c: char) {
    || c == '\t' || c == '\U{000B}' || c == '\U{000C}' || c == ' '
    || c == '\U{00A0}' || c == '\U{FEFF}' || c == '\U{1680}'
    || ('\U{2000}' <= c <= '\U{200A}')
    || c == '\U{202F}' || c == '\U{205F}' || c == '\U{3000}'
    || c == '\n' || c == '\r' || c == '\U{2028}' || c == '\U{2029}'
  }

  /** Every character of `s` is white space (vacuously true of ""). */
  predicate AllWhitespace(s: string) {
    forall i :: 0 <= i < |s| ==> IsWhitespace(s[i])
  }

  /** `s` with its leading white space removed. */
  function TrimStart(s: string): (r: string)
    ensures |r| <= |s| && r == s[|s| - |r|..]
    ensures AllWhitespace(s[..|s| - |r|])
    ensures r == [] || !IsWhitespace(r[0])
  {
    if |s| > 0 && IsWhitespace(s[0]) then
      var r := TrimStart(s[1..]);
      assert s[..|s| - |r|] == [s[0]] + s[1..][..|s| - 1 - |r|];
      AllWhitespaceConcat([s[0]], s[1..][..|s| - 1 - |r|]);
      r
    else s
  }

  /** `s` with its trailing white space removed. */
  function TrimEnd(s: string): (r: string)
    ensures |r| <= |s| && r == s[..|r|]
    ensures AllWhitespace(s[|r|..])
    ensures r == [] || !IsWhitespace(r[|r| - 1])
  {
    if |s| > 0 && IsWhitespace(s[|s| - 1]) then
      var r := TrimEnd(s[..|s| - 1]);
      assert s[|r|..] == s[..|s| - 1][|r|..] + [s[|s| - 1]];
      AllWhitespaceConcat(s[..|s| - 1][|r|..], [s[|s| - 1]]);
      r
    else s
  }

  /** `s.trim()`: the result is empty exactly when `s` is all white space,
      and otherwise begins and ends with a character that is not. */
  function Trim(s: string): (r: string)
    ensures |r| <= |s|
    ensures r == [] <==> AllWhitespace(s)
    ensures r != [] ==> !IsWhitespace(r[0]) && !IsWhitespace(r[|r| - 1])
  {
    var t := TrimStart(s);
    var r := TrimEnd(t);
    TrimSplit(s, t, r);
    r
  }

  /** How `Trim` splits `s`: white space, then `r`, then white space. */
  lemma TrimSplit(s: string, t: string, r: string)
    requires t == TrimStart(s) && r == TrimEnd(t)
    ensures r == [] <==> AllWhitespace(s)
  {
  }

  lemma AllWhitespaceConcat(a: string, b: string)
    requires AllWhitespace(a) && AllWhitespace(b)
    ensures AllWhitespace(a + b)
  {
  }

  /** Trimming twice removes nothing more than trimming once. */
  lemma TrimIdempotent(s: string)
    ensures Trim(Trim(s)) == Trim(s)
  {
  }

  predicate IsAsciiUpper(c: char) {
    'A' <= c <= 'Z'
  }

  /** The lower-case form of `c`, restricted to the ASCII letters. */
  function LowerChar(c: char): char {
    if IsAsciiUpper(c) then (c as int + 32) as char else c
  }

  /** `s.toLowerCase()` on the ASCII letters: same length, no upper-case
      ASCII letter left, and every character either kept or replaced by the
      lower-case form of the upper-case letter it was. */
  function ToLower(s: string): (r: string)
    ensures |r| == |s|
    ensures forall i :: 0 <= i < |r| ==> !IsAsciiUpper(r[i])
    ensures forall i :: 0 <= i < |r| ==>
      r[i] == s[i] || (IsAsciiUpper(s[i]) && r[i] as int == s[i] as int + 32)
  {
    if s == [] then [] else [LowerChar(s[0])] + ToLower(s[1..])
  }

  /** A string with no upper-case ASCII letter is its own lower-case form. */
  lemma ToLowerOfLower(s: string)
    requires forall i :: 0 <= i < |s| ==> !IsAsciiUpper(s[i])
    ensures ToLower(s) == s
  {
  }

  /** Lower-casing is idempotent. */
  lemma ToLowerIdempotent(s: string)
    ensures ToLower(ToLower(s)) == ToLower(s)
  {
  }

  /** `needle` occurs in `hay` starting at position `i`. */
  predicate OccursAt(hay: string, needle: string, i: int) {
    0 <= i && i + |needle| <= |hay| && hay[i..i + |needle|] == needle
  }

  /** `hay.includes(needle)`: true exactly when `needle` occurs somewhere
      in `hay` (so always for the empty needle). */
  function Includes(hay: string, needle: string): (r: bool)
    ensures r <==> exists i :: OccursAt(hay, needle, i)
    decreases |hay|
  {
    if |needle| > |hay| then
      assert forall i :: !OccursAt(hay, needle, i);
      false
    else if hay[..|needle|] == needle then
      assert OccursAt(hay, needle, 0);
      true
    else
      var rest := Includes(hay[1..], needle);
      assert forall i :: OccursAt(hay[1..], needle, i) <==> OccursAt(hay, needle, i + 1) by {
        forall i | OccursAt(hay[1..], needle, i)
          ensures OccursAt(hay, needle, i + 1)
        {
          assert hay[1..][i..i + |needle|] == hay[i + 1..i + 1 + |needle|];
        }
        forall i | OccursAt(hay, needle, i + 1)
          ensures OccursAt(hay[1..], needle, i)
        {
          assert hay[1..][i..i + |needle|] == hay[i + 1..i + 1 + |needle|];
        }
      }
      assert forall i :: OccursAt(hay, needle, i) ==> i > 0 && OccursAt(hay[1..], needle, i - 1);
      rest
  }
}

=== FILE: screen.dfy ===
/**
  The rendered task list and its click handlers. The list shows the
  filtered tasks, but each row hands its position in the FILTERED list to
  handlers that index the UNDERLYING list. This module models those
  handlers as written, shows where they act on a task other than the one
  clicked, and gives corrected handlers that first translate the displayed
  position into the underlying one.
 */
module Screen {
  import opened JsString
  import opened TaskList
  import opened TaskView

  /** The list the component renders for `s`: no longer than the list, and
      a task appears in it exactly when it is in the list and passes the
      status filter and the search. */
  function View(s: State): (v: seq<Task>)
    ensures |v| <= |s.tasks|
    ensures forall t :: t in v <==> t in s.tasks && Shown(t, s.filter, s.searchQuery)
  {
    var v := FilteredTasks(s.tasks, s.filter, s.searchQuery);
    forall t ensures t in v <==> t in s.tasks && Shown(t, s.filter, s.searchQuery) {
      FilteredMembership(s.tasks, s.filter, s.searchQuery, t);
    }
    v
  }

  /** The underlying position of the task rendered at display position `k`:
      it holds that task, and exactly `k` rows come from the tasks before it,
      which singles it out among equal tasks. */
  function Target(s: State, k: nat): (j: nat)
    requires k < |View(s)|
    ensures j < |s.tasks| && s.tasks[j] == View(s)[k]
    ensures |FilteredTasks(s.tasks[..j], s.filter, s.searchQuery)| == k
    ensures k <= j
  {
    FilteredIsShownPositions(s.tasks, s.filter, s.searchQuery);
    RowsBeforeTarget(s.tasks, s.filter, s.searchQuery, k);
    ShownPositionsAtLeastIndex(ShownPositions(s.tasks, s.filter, s.searchQuery), k);
    ShownPositions(s.tasks, s.filter, s.searchQuery)[k]
  }

  /** A strictly increasing sequence of naturals has `p[k] >= k`. */
  lemma {:induction false} ShownPositionsAtLeastIndex(p: seq<nat>, k: nat)
    requires forall a, b :: 0 <= a < b < |p| ==> p[a] < p[b]
    requires k < |p|
    ensures k <= p[k]
  {
    if k > 0 {
      ShownPositionsAtLeastIndex(p, k - 1);
    }
  }

  // The handlers as written: the display position goes straight through.

  /** Clicking the body of row `k` flips the task at list position `k`,
      whichever task row `k` shows. */
  function ClickToggleAsWritten(s: State, k: nat): (r: State)
    requires k < |View(s)|
    ensures k < |s.tasks| && |r.tasks| == |s.tasks|
    ensures r.tasks[k] == s.tasks[k].(completed := !s.tasks[k].completed)
    ensures forall j :: 0 <= j < |s.tasks| && j != k ==> r.tasks[j] == s.tasks[j]
    ensures r == s.(tasks := r.tasks)
  {
    ToggleComplete(s, k)
  }

  /** Clicking the edit button of row `k` loads the task at list position
      `k` and makes `k` the edit target, whichever task row `k` shows. */
  function ClickEditAsWritten(s: State, k: nat): (r: State)
    requires k < |View(s)|
    ensures k < |s.tasks| && r.tasks == s.tasks
    ensures r.val == s.tasks[k].text && r.dueDate == s.tasks[k].due
    ensures r.priority == s.tasks[k].priority && r.editingIndex == Some(k)
    ensures SameView(s, r)
  {
    BeginEdit(s, k)
  }

  /** Clicking the delete button of row `k` removes the task at list
      position `k`, whichever task row `k` shows. */
  function ClickDeleteAsWritten(s: State, k: nat): (r: State)
    requires k < |View(s)|
    ensures k < |s.tasks| && r.tasks == s.tasks[..k] + s.tasks[k + 1..]
    ensures r == s.(tasks := r.tasks)
  {
    Delete(s, k)
  }

  /** As written, the toggle and edit buttons of row `k` act on the task
      clicked exactly when its underlying position is `k`; when the filter
      is `All` and the query empty that is always so. */
  lemma AsWrittenActsOnClickedTaskIff(s: State, k: nat)
    requires k < |View(s)|
    ensures ClickToggleAsWritten(s, k) == ClickToggle(s, k) <==> Target(s, k) == k
    ensures ClickEditAsWritten(s, k) == ClickEdit(s, k) <==> Target(s, k) == k
    ensures s.filter == All && s.searchQuery == "" ==> Target(s, k) == k
    ensures s.filter == All && s.searchQuery == "" ==>
      ClickDeleteAsWritten(s, k) == ClickDelete(s, k)
  {
    var j := Target(s, k);
    if j != k {
      assert ClickToggleAsWritten(s, k).tasks[k].completed != ClickToggle(s, k).tasks[k].completed;
    }
    if s.filter == All && s.searchQuery == "" {
      UnfilteredViewIsIdentity(s.tasks);
    }
  }

  /** With a completed task after an active one and the `Completed` filter
      on, the single row shows the completed task, yet its delete button
      removes the hidden active task and its toggle completes the hidden
      task instead of reopening the shown one. */
  lemma AsWrittenClickHitsHiddenTask()
    ensures var milk := Task("Buy milk", false, "2024-01-01", High);
      var dog := Task("Walk dog", true, "", Low);
      var s := Initial.(tasks := [milk, dog], filter := Completed);
      && View(s) == [dog]
      && ClickDeleteAsWritten(s, 0).tasks == [dog]
      && View(ClickDeleteAsWritten(s, 0)) == [dog]
      && ClickToggleAsWritten(s, 0).tasks == [milk.(completed := true), dog]
      && ClickDelete(s, 0).tasks == [milk]
      && View(ClickDelete(s, 0)) == []
  {
  }

  // The corrected handlers: translate the display position first.

  /** Clicking row `k` flips the completion of exactly the task shown in
      that row, at its own position in the list. */
  function ClickToggle(s: State, k: nat): (r: State)
    requires k < |View(s)|
    ensures |r.tasks| == |s.tasks|
    ensures r.tasks[Target(s, k)] == View(s)[k].(completed := !View(s)[k].completed)
    ensures forall j :: 0 <= j < |s.tasks| && j != Target(s, k) ==> r.tasks[j] == s.tasks[j]
    ensures r == s.(tasks := r.tasks)
  {
    ToggleComplete(s, Target(s, k))
  }

  /** The edit button of row `k` loads the task shown in that row and makes
      its underlying position the edit target, so the next submission
      replaces that task. */
  function ClickEdit(s: State, k: nat): (r: State)
    requires k < |View(s)|
    ensures r.tasks == s.tasks && SameView(s, r)
    ensures r.val == View(s)[k].text && r.dueDate == View(s)[k].due
    ensures r.priority == View(s)[k].priority
    ensures r.editingIndex == Some(Target(s, k))
    ensures !AllWhitespace(r.val) ==>
      Submit(r).tasks == s.tasks[Target(s, k) := View(s)[k].(completed := false)]
  {
    BeginEdit(s, Target(s, k))
  }

  /** The delete button of row `k` removes exactly the task shown in that
      row: the list loses that one position, and the rendered list loses
      exactly row `k`, the other rows keeping their order. */
  function ClickDelete(s: State, k: nat): (r: State)
    requires k < |View(s)|
    ensures |r.tasks| == |s.tasks| - 1
    ensures r.tasks == s.tasks[..Target(s, k)] + s.tasks[Target(s, k) + 1..]
    ensures View(r) == View(s)[..k] + View(s)[k + 1..]
    ensures r == s.(tasks := r.tasks)
  {
    var j := Target(s, k);
    var r := Delete(s, j);
    assert r.tasks == WithoutPosition(s.tasks, j) == s.tasks[..j] + s.tasks[j + 1..];
    DeleteKeepsOtherRows(s.tasks, s.filter, s.searchQuery, j, k);
    r
  }

  /** The tasks before the `k`-th shown one contribute exactly `k` rows. */
  lemma {:induction false} RowsBeforeTarget(ts: seq<Task>, f: Filter, q: string, k: nat)
    requires k < |ShownPositions(ts, f, q)|
    ensures |FilteredTasks(ts[..ShownPositions(ts, f, q)[k]], f, q)| == k
  {
    var n := |ts| - 1;
    var init := ts[..n];
    var p0 := ShownPositions(init, f, q);
    if k == |p0| {
      FilteredIsShownPositions(init, f, q);
      assert ShownPositions(ts, f, q)[k] == n;
    } else {
      RowsBeforeTarget(init, f, q, k);
      var j := p0[k];
      assert ShownPositions(ts, f, q)[k] == j;
      assert init[..j] == ts[..j];
    }
  }

  /** Removing a shown task with `k` rows before it removes exactly row `k`
      from the rendered list. */
  lemma DeleteKeepsOtherRows(ts: seq<Task>, f: Filter, q: string, j: nat, k: nat)
    requires j < |ts| && Shown(ts[j], f, q)
    requires |FilteredTasks(ts[..j], f, q)| == k
    ensures k < |FilteredTasks(ts, f, q)|
    ensures FilteredTasks(ts[..j] + ts[j + 1..], f, q)
      == FilteredTasks(ts, f, q)[..k] + FilteredTasks(ts, f, q)[k + 1..]
  {
    var a, b := ts[..j], ts[j + 1..];
    assert ts == a + [ts[j]] + b;
    FilteredConcat(a + [ts[j]], b, f, q);
    FilteredConcat(a, [ts[j]], f, q);
    FilteredConcat(a, b, f, q);
    assert [ts[j]][..0] == [];
    var fa, fb := FilteredTasks(a, f, q), FilteredTasks(b, f, q);
    var v := fa + [ts[j]] + fb;
    assert FilteredTasks(ts, f, q) == v;
    assert v[..k] == fa;
    assert v[k + 1..] == fb;
  }
}

=== FILE: tasklist.dfy ===
/**
  The state of the to-do list component and the four operations that change
  it: submitting the form (create or update), toggling completion, deleting
  and beginning an edit. Every operation is a pure transition on `State`;
  tasks are addressed by their position in the underlying list, as in the
  component's handlers.
 */
module TaskList {
  import opened JsString

  datatype Option<T> = None | Some(value: T)

  /** The three choices of the priority selector. */
  datatype Priority = High | Medium | Low

  /** The three filter buttons. */
  datatype Filter = All | Active | Completed

  /** A stored task; `due` is a date string, "" when no date was given. */
  datatype Task = Task(text: string, completed: bool, due: string, priority: Priority)

  /** The component's state: the task list, the form buffer (`val`,
      `dueDate`, `priority`), the edit target, the filter, the search query
      and the theme flag. */
  datatype State = State(
    tasks: seq<Task>,
    val: string,
    dueDate: string,
    priority: Priority,
    editingIndex: Option<nat>,
    filter: Filter,
    searchQuery: string,
    darkMode: bool)

  /** The state a fresh component starts in, before anything is loaded. */
  const Initial := State([], "", "", Medium, None, All, "", false)

  /** The task a submission builds from the form buffer. */
  function NewTask(s: State): Task {
    Task(s.val, false, s.dueDate, s.priority)
  }

  /** What a submission may rely on about the edit target: it names a
      position of the list or the position just past its end. */
  predicate EditTargetInRange(s: State) {
    s.editingIndex.Some? ==> s.editingIndex.value <= |s.tasks|
  }

  /** The fields an operation on the task list never touches. */
  predicate SameView(s: State, r: State) {
    r.filter == s.filter && r.searchQuery == s.searchQuery && r.darkMode == s.darkMode
  }

  /** The form buffer back at its defaults and no edit in progress. */
  predicate FormCleared(r: State) {
    r.val == "" && r.dueDate == "" && r.priority == Medium && r.editingIndex == None
  }

  /** The form submission. A text that is white space only is ignored and
      nothing changes. Otherwise, without an edit target the new task is
      appended; with one, it replaces the task at that position (an index
      one past the end extends the list, as a JavaScript array assignment
      does). Either way the buffer is reset and the edit target cleared. */
  function Submit(s: State): (r: State)
    requires EditTargetInRange(s)
    ensures AllWhitespace(s.val) ==> r == s
    ensures !AllWhitespace(s.val) ==> FormCleared(r) && SameView(s, r)
    ensures !AllWhitespace(s.val) && (s.editingIndex.None? || s.editingIndex.value == |s.tasks|) ==>
      && |r.tasks| == |s.tasks| + 1
      && r.tasks[..|s.tasks|] == s.tasks
      && r.tasks[|s.tasks|] == Task(s.val, false, s.dueDate, s.priority)
    ensures !AllWhitespace(s.val) && s.editingIndex.Some? && s.editingIndex.value < |s.tasks| ==>
      && |r.tasks| == |s.tasks|
      && r.tasks[s.editingIndex.value] == Task(s.val, false, s.dueDate, s.priority)
      && forall j :: 0 <= j < |s.tasks| && j != s.editingIndex.value ==> r.tasks[j] == s.tasks[j]
  {
    if Trim(s.val) == "" then s
    else
      var t := NewTask(s);
      var tasks :=
        match s.editingIndex
        case None => s.tasks + [t]
        case Some(i) => if i < |s.tasks| then s.tasks[i := t] else s.tasks + [t];
      s.(tasks := tasks, editingIndex := None, val := "", dueDate := "", priority := Medium)
  }

  /** Flips the completion of the task at position `i`; nothing else in the
      list or the state changes. The component fails on a position past the
      end, so the position must be in range. */
  function ToggleComplete(s: State, i: nat): (r: State)
    requires i < |s.tasks|
    ensures |r.tasks| == |s.tasks|
    ensures r.tasks[i].completed != s.tasks[i].completed
    ensures r.tasks[i].text == s.tasks[i].text && r.tasks[i].due == s.tasks[i].due
    ensures r.tasks[i].priority == s.tasks[i].priority
    ensures forall j :: 0 <= j < |s.tasks| && j != i ==> r.tasks[j] == s.tasks[j]
    ensures r == s.(tasks := r.tasks)
  {
    s.(tasks := s.tasks[i := s.tasks[i].(completed := !s.tasks[i].completed)])
  }

  /** Toggling the same position twice restores the original state. */
  lemma ToggleTwice(s: State, i: nat)
    requires i < |s.tasks|
    ensures ToggleComplete(ToggleComplete(s, i), i) == s
  {
  }

  /** The list kept by filtering out position `i` of `ts`, walking the list
      from the front as `Array.prototype.filter` does. */
  function WithoutPosition(ts: seq<Task>, i: int): (r: seq<Task>)
    ensures 0 <= i < |ts| ==> r == ts[..i] + ts[i + 1..]
    ensures !(0 <= i < |ts|) ==> r == ts
  {
    if ts == [] then []
    else
      var rest := WithoutPosition(ts[1..], i - 1);
      assert ts == [ts[0]] + ts[1..];
      if i == 0 then rest
      else
        assert 0 < i < |ts| ==> ts[1..][..i - 1] == ts[1..i] && ts[1..][i..] == ts[i + 1..];
        [ts[0]] + rest
  }

  /** Deletes the task at position `i`: later tasks move down by one and
      keep their order. A position outside the list deletes nothing. */
  function Delete(s: State, i: int): (r: State)
    ensures 0 <= i < |s.tasks| ==> |r.tasks| == |s.tasks| - 1
    ensures 0 <= i < |s.tasks| ==>
      && (forall j :: 0 <= j < i ==> r.tasks[j] == s.tasks[j])
      && (forall j :: i <= j < |r.tasks| ==> r.tasks[j] == s.tasks[j + 1])
    ensures !(0 <= i < |s.tasks|) ==> r == s
    ensures r == s.(tasks := r.tasks)
  {
    s.(tasks := WithoutPosition(s.tasks, i))
  }

  /** Loads the task at position `i` into the form buffer and makes it the
      edit target; the list itself is untouched. The component fails on a
      position past the end, so the position must be in range. */
  function BeginEdit(s: State, i: nat): (r: State)
    requires i < |s.tasks|
    ensures r.tasks == s.tasks && SameView(s, r)
    ensures r.val == s.tasks[i].text && r.dueDate == s.tasks[i].due
    ensures r.priority == s.tasks[i].priority
    ensures r.editingIndex == Some(i)
  {
    var t := s.tasks[i];
    s.(val := t.text, dueDate := t.due, priority := t.priority, editingIndex := Some(i))
  }

  /** Beginning an edit and submitting the untouched form writes the same
      task back in place, except that its completion is reset. */
  lemma EditRoundTripResetsCompletion(s: State, i: nat)
    requires i < |s.tasks| && !AllWhitespace(s.tasks[i].text)
    ensures Submit(BeginEdit(s, i)).tasks == s.tasks[i := s.tasks[i].(completed := false)]
    ensures FormCleared(Submit(BeginEdit(s, i)))
  {
  }

  /** Every stored task has a text with a character that is not white
      space: the guard of `Submit` keeps blank tasks out. */
  predicate TextsNotBlank(ts: seq<Task>) {
    forall k :: 0 <= k < |ts| ==> !AllWhitespace(ts[k].text)
  }

  /** A submission keeps blank texts out of the list: it only stores a
      text that passed the guard. */
  lemma SubmitKeepsTextsNotBlank(s: State)
    requires TextsNotBlank(s.tasks) && EditTargetInRange(s)
    ensures TextsNotBlank(Submit(s).tasks)
  {
    var r := Submit(s);
    if !AllWhitespace(s.val) {
      forall k | 0 <= k < |r.tasks| ensures !AllWhitespace(r.tasks[k].text) {
        if k < |s.tasks| && s.editingIndex != Some(k) {
          assert r.tasks[k] == s.tasks[k];
        } else {
          assert r.tasks[k].text == s.val;
        }
      }
    }
  }

  /** Deleting, toggling and beginning an edit store no new text, so they
      keep blank texts out of the list too. */
  lemma OtherOperationsKeepTextsNotBlank(s: State, i: nat)
    requires TextsNotBlank(s.tasks)
    ensures TextsNotBlank(Delete(s, i).tasks)
    ensures i < |s.tasks| ==> TextsNotBlank(ToggleComplete(s, i).tasks)
    ensures i < |s.tasks| ==> TextsNotBlank(BeginEdit(s, i).tasks)
  {
    var d := Delete(s, i);
    if i < |s.tasks| {
      forall k | 0 <= k < |d.tasks| ensures !AllWhitespace(d.tasks[k].text) {
        if k >= i {
          assert d.tasks[k] == s.tasks[k + 1];
        }
      }
    }
  }

  /** The edit target names a task of the list. */
  predicate EditTargetValid(s: State) {
    s.editingIndex.Some? ==> s.editingIndex.value < |s.tasks|
  }

  /** Submitting, toggling and beginning an edit keep the edit target valid. */
  lemma EditTargetStaysValid(s: State, i: nat)
    requires EditTargetValid(s)
    ensures EditTargetValid(Submit(s))
    ensures i < |s.tasks| ==> EditTargetValid(ToggleComplete(s, i))
    ensures i < |s.tasks| ==> EditTargetValid(BeginEdit(s, i))
  {
  }

  /** Deleting does not, because it never adjusts the edit target.
      Deleting the last task while it is being edited leaves the target one
      past the end, and the next submission appends instead of replacing. */
  lemma DeleteLeavesEditTargetPastEnd(s: State)
    requires |s.tasks| > 0 && s.editingIndex == Some(|s.tasks| - 1)
    requires !AllWhitespace(s.val)
    ensures !EditTargetValid(Delete(s, |s.tasks| - 1))
    ensures Submit(Delete(s, |s.tasks| - 1)).tasks == s.tasks[..|s.tasks| - 1] + [NewTask(s)]
  {
  }

  /** Deleting the task being edited, or one before it, while it is not
      the last task leaves the target where it was, so it now names the task
      that followed the edited one, and the next submission overwrites that
      task. */
  lemma DeleteBeforeEditTargetRetargets(s: State, i: nat)
    requires s.editingIndex.Some? && i <= s.editingIndex.value < |s.tasks| - 1
    requires !AllWhitespace(s.val)
    ensures var e, d := s.editingIndex.value, Delete(s, i);
      && EditTargetValid(d) && d.tasks[e] == s.tasks[e + 1]
      && Submit(d).tasks == d.tasks[e := NewTask(s)]
  {
  }
}

=== FILE: taskview.dfy ===
/**
  The views the component derives from its state on every render: the
  filtered list (status filter and case-insensitive search), the positions
  in the underlying list of the tasks it shows, the number of completed
  tasks and the width of the progress bar.
 */
module TaskView {
  import opened JsString
  import opened TaskList

  /** The search condition: an empty query matches everything, otherwise
      the lower-cased text must contain the lower-cased query. */
  predicate MatchesSearch(text: string, query: string) {
    query == "" || Includes(ToLower(text), ToLower(query))
  }

  /** The filter condition: `Completed` drops unfinished tasks, `Active`
      drops finished ones, `All` drops none. */
  predicate MatchesStatus(f: Filter, completed: bool) {
    !(f == Completed && !completed) && !(f == Active && completed)
  }

  /** A task is shown when it passes both conditions. */
  predicate Shown(t: Task, f: Filter, q: string) {
    MatchesStatus(f, t.completed) && MatchesSearch(t.text, q)
  }

  /** Search ignores the case of the query and of the text: searching
      with either one lower-cased first gives the same answer. */
  lemma SearchIgnoresCase(text: string, q: string)
    ensures MatchesSearch(ToLower(text), q) == MatchesSearch(text, q)
    ensures MatchesSearch(text, ToLower(q)) == MatchesSearch(text, q)
  {
    ToLowerIdempotent(text);
    ToLowerIdempotent(q);
  }

  /** A non-empty query matches exactly when its lower-cased form occurs
      somewhere in the lower-cased text. */
  lemma SearchIsSubstring(text: string, q: string)
    requires q != ""
    ensures MatchesSearch(text, q) ==> exists i :: OccursAt(ToLower(text), ToLower(q), i)
    ensures (exists i :: OccursAt(ToLower(text), ToLower(q), i)) ==> MatchesSearch(text, q)
  {
    assert MatchesSearch(text, q) == Includes(ToLower(text), ToLower(q));
  }

  /** The filtered list the component renders: the tasks that are shown,
      in their order in the underlying list. */
  function FilteredTasks(ts: seq<Task>, f: Filter, q: string): (r: seq<Task>)
    ensures |r| <= |ts|
    ensures forall k :: 0 <= k < |r| ==> Shown(r[k], f, q)
  {
    if ts == [] then []
    else
      var init := FilteredTasks(ts[..|ts| - 1], f, q);
      if Shown(ts[|ts| - 1], f, q) then init + [ts[|ts| - 1]] else init
  }

  /** The positions in `ts` of the shown tasks, in increasing order: every
      position listed holds a shown task and every shown task is listed. */
  function ShownPositions(ts: seq<Task>, f: Filter, q: string): (r: seq<nat>)
    ensures forall k :: 0 <= k < |r| ==> r[k] < |ts| && Shown(ts[r[k]], f, q)
    ensures forall k, m :: 0 <= k < m < |r| ==> r[k] < r[m]
    ensures forall j :: 0 <= j < |ts| && Shown(ts[j], f, q) ==> j in r
  {
    if ts == [] then []
    else
      var n := |ts| - 1;
      var init := ShownPositions(ts[..n], f, q);
      ShownPositionsStep(ts, f, q, init);
      if Shown(ts[n], f, q) then init + [n] else init
  }

  /** The step of `ShownPositions`: the positions of the shown tasks among
      all but the last task, extended by the last position when that task
      is shown, are the positions of the shown tasks of the whole list. */
  lemma ShownPositionsStep(ts: seq<Task>, f: Filter, q: string, init: seq<nat>)
    requires |ts| > 0
    requires forall k :: 0 <= k < |init| ==> init[k] < |ts| - 1 && Shown(ts[..|ts| - 1][init[k]], f, q)
    requires forall k, m :: 0 <= k < m < |init| ==> init[k] < init[m]
    requires forall j :: 0 <= j < |ts| - 1 && Shown(ts[..|ts| - 1][j], f, q) ==> j in init
    ensures var r := if Shown(ts[|ts| - 1], f, q) then init + [|ts| - 1] else init;
      && (forall k :: 0 <= k < |r| ==> r[k] < |ts| && Shown(ts[r[k]], f, q))
      && (forall k, m :: 0 <= k < m < |r| ==> r[k] < r[m])
      && (forall j :: 0 <= j < |ts| && Shown(ts[j], f, q) ==> j in r)
  {
    var n := |ts| - 1;
    var p := ts[..n];
    var r := if Shown(ts[n], f, q) then init + [n] else init;
    forall k | 0 <= k < |r| ensures r[k] < |ts| && Shown(ts[r[k]], f, q) {
      if k < |init| {
        assert r[k] == init[k] && ts[init[k]] == p[init[k]];
      }
    }
    forall k, m | 0 <= k < m < |r| ensures r[k] < r[m] {
      assert r[k] == init[k];
      if m < |init| {
        assert r[m] == init[m];
      }
    }
    forall j | 0 <= j < |ts| && Shown(ts[j], f, q) ensures j in r {
      if j < n {
        assert p[j] == ts[j];
        assert j in init;
      } else {
        assert r[|r| - 1] == n;
      }
    }
  }

  /** The filtered list is the list of tasks at the shown positions: display
      position `k` holds the task at underlying position `ShownPositions[k]`.
      So the filtered list is an order-preserving subsequence of the list. */
  lemma {:induction false} FilteredIsShownPositions(ts: seq<Task>, f: Filter, q: string)
    ensures |FilteredTasks(ts, f, q)| == |ShownPositions(ts, f, q)|
    ensures forall k :: 0 <= k < |ShownPositions(ts, f, q)| ==>
      FilteredTasks(ts, f, q)[k] == ts[ShownPositions(ts, f, q)[k]]
  {
    if ts != [] {
      var n := |ts| - 1;
      FilteredIsShownPositions(ts[..n], f, q);
      var v := FilteredTasks(ts[..n], f, q);
      var p := ShownPositions(ts[..n], f, q);
      var v' := FilteredTasks(ts, f, q);
      var p' := ShownPositions(ts, f, q);
      forall k | 0 <= k < |p'| ensures v'[k] == ts[p'[k]] {
        if k < |p| {
          assert v'[k] == v[k] && p'[k] == p[k];
          assert ts[p[k]] == ts[..n][p[k]];
        }
      }
    }
  }

  /** A task is in the filtered list exactly when it is in the list and
      passes both conditions. */
  lemma FilteredMembership(ts: seq<Task>, f: Filter, q: string, t: Task)
    ensures t in FilteredTasks(ts, f, q) <==> t in ts && Shown(t, f, q)
  {
    FilteredIsShownPositions(ts, f, q);
    var v := FilteredTasks(ts, f, q);
    var p := ShownPositions(ts, f, q);
    if t in v {
      var k :| 0 <= k < |v| && v[k] == t;
      assert ts[p[k]] == t;
    }
    if t in ts && Shown(t, f, q) {
      var j :| 0 <= j < |ts| && ts[j] == t;
      assert j in p;
      var k :| 0 <= k < |p| && p[k] == j;
      assert v[k] == t;
    }
  }

  /** With filter `All` and an empty query every task is shown at its own
      position: a displayed position names the same underlying task. */
  lemma UnfilteredViewIsIdentity(ts: seq<Task>)
    ensures FilteredTasks(ts, All, "") == ts
    ensures |ShownPositions(ts, All, "")| == |ts|
    ensures forall k :: 0 <= k < |ts| ==> ShownPositions(ts, All, "")[k] == k
  {
    UnfilteredListIsList(ts);
    UnfilteredPositionsAreIdentity(ts);
  }

  /** With filter `All` and an empty query the filtered list is the list. */
  lemma {:induction false} UnfilteredListIsList(ts: seq<Task>)
    ensures FilteredTasks(ts, All, "") == ts
  {
    if ts != [] {
      var n := |ts| - 1;
      UnfilteredListIsList(ts[..n]);
      assert Shown(ts[n], All, "");
      assert FilteredTasks(ts, All, "") == FilteredTasks(ts[..n], All, "") + [ts[n]];
      assert ts == ts[..n] + [ts[n]];
    }
  }

  /** With filter `All` and an empty query every position is shown, in order. */
  lemma {:induction false} UnfilteredPositionsAreIdentity(ts: seq<Task>)
    ensures |ShownPositions(ts, All, "")| == |ts|
    ensures forall k :: 0 <= k < |ts| ==> ShownPositions(ts, All, "")[k] == k
  {
    if ts != [] {
      var n := |ts| - 1;
      UnfilteredPositionsAreIdentity(ts[..n]);
      assert Shown(ts[n], All, "");
      var p0 := ShownPositions(ts[..n], All, "");
      assert ShownPositions(ts, All, "") == p0 + [n];
    }
  }

  /** The filters compose by conjunction: filtering by status and then
      searching the result is filtering by both at once. */
  lemma {:induction false} FiltersCompose(ts: seq<Task>, f: Filter, q: string)
    ensures FilteredTasks(FilteredTasks(ts, f, ""), All, q) == FilteredTasks(ts, f, q)
  {
    if ts != [] {
      var n := |ts| - 1;
      FiltersCompose(ts[..n], f, q);
      var v := FilteredTasks(ts[..n], f, "");
      assert ts == ts[..n] + [ts[n]];
      FilteredSnoc(ts[..n], ts[n], f, "");
      FilteredSnoc(ts[..n], ts[n], f, q);
      FilteredSnoc(v, ts[n], All, q);
    }
  }

  /** Filtering a list with one more task at the end. */
  lemma FilteredSnoc(ts: seq<Task>, x: Task, f: Filter, q: string)
    ensures FilteredTasks(ts + [x], f, q)
      == FilteredTasks(ts, f, q) + (if Shown(x, f, q) then [x] else [])
  {
  }

  /** Filtering a concatenation filters each part. */
  lemma {:induction false} FilteredConcat(a: seq<Task>, b: seq<Task>, f: Filter, q: string)
    ensures FilteredTasks(a + b, f, q) == FilteredTasks(a, f, q) + FilteredTasks(b, f, q)
    decreases |b|
  {
    if b == [] {
      assert a + b == a;
    } else {
      var n := |b| - 1;
      assert (a + b)[..|a + b| - 1] == a + b[..n];
      FilteredConcat(a, b[..n], f, q);
    }
  }

  /** The number of completed tasks in `ts`. */
  function CompletedCount(ts: seq<Task>): (r: nat)
    ensures r <= |ts|
  {
    if ts == [] then 0
    else CompletedCount(ts[..|ts| - 1]) + Indicator(ts[|ts| - 1].completed)
  }

  /** The completed count is the length of the `Completed` view with no
      query, and together with the `Active` view it accounts for every
      task exactly once. */
  lemma {:induction false} CompletedCountIsCompletedView(ts: seq<Task>)
    ensures CompletedCount(ts) == |FilteredTasks(ts, Completed, "")|
    ensures CompletedCount(ts) + |FilteredTasks(ts, Active, "")| == |ts|
  {
    if ts != [] {
      CompletedCountIsCompletedView(ts[..|ts| - 1]);
    }
  }

  /** The completed count is the number of positions holding a completed
      task. */
  lemma CompletedCountCountsCompleted(ts: seq<Task>)
    ensures CompletedCount(ts) == |ShownPositions(ts, Completed, "")|
    ensures forall j :: 0 <= j < |ts| ==>
      (ts[j].completed <==> j in ShownPositions(ts, Completed, ""))
  {
  }

  /** The completed count of a concatenation is the sum of the parts'. */
  lemma {:induction false} CompletedCountConcat(a: seq<Task>, b: seq<Task>)
    ensures CompletedCount(a + b) == CompletedCount(a) + CompletedCount(b)
    decreases |b|
  {
    if b == [] {
      assert a + b == a;
    } else {
      var n := |b| - 1;
      assert (a + b)[..|a + b| - 1] == a + b[..n];
      CompletedCountConcat(a, b[..n]);
    }
  }

  function Indicator(b: bool): nat {
    if b then 1 else 0
  }

  /** Replacing the task at position `i` changes the completed count by
      what the old task contributed and the new one does. */
  lemma CompletedCountUpdate(ts: seq<Task>, i: nat, t: Task)
    requires i < |ts|
    ensures CompletedCount(ts[i := t]) + Indicator(ts[i].completed)
      == CompletedCount(ts) + Indicator(t.completed)
  {
    assert ts == ts[..i] + [ts[i]] + ts[i + 1..];
    assert ts[i := t] == ts[..i] + [t] + ts[i + 1..];
    CompletedCountConcat(ts[..i] + [ts[i]], ts[i + 1..]);
    CompletedCountConcat(ts[..i], [ts[i]]);
    CompletedCountConcat(ts[..i] + [t], ts[i + 1..]);
    CompletedCountConcat(ts[..i], [t]);
  }

  /** Toggling moves the completed count by one in the direction of the
      flip. */
  lemma CompletedCountAfterToggle(s: State, i: nat)
    requires i < |s.tasks|
    ensures s.tasks[i].completed ==>
      CompletedCount(ToggleComplete(s, i).tasks) == CompletedCount(s.tasks) - 1
    ensures !s.tasks[i].completed ==>
      CompletedCount(ToggleComplete(s, i).tasks) == CompletedCount(s.tasks) + 1
  {
    var ts := s.tasks;
    var t := ts[i].(completed := !ts[i].completed);
    CompletedCountUpdate(ts, i, t);
    assert ToggleComplete(s, i).tasks == ts[i := t];
  }

  /** Deleting drops the completed count by the deleted task's share. */
  lemma CompletedCountAfterDelete(s: State, i: nat)
    requires i < |s.tasks|
    ensures CompletedCount(Delete(s, i).tasks) + Indicator(s.tasks[i].completed)
      == CompletedCount(s.tasks)
  {
    var ts := s.tasks;
    var a, x, b := ts[..i], ts[i], ts[i + 1..];
    assert Delete(s, i).tasks == WithoutPosition(ts, i) == a + b;
    CompletedCountConcat(a, b);
    assert ts == a + [x] + b;
    CompletedCountConcat(a + [x], b);
    CompletedCountConcat(a, [x]);
    assert CompletedCount([x]) == Indicator(x.completed) by { assert [x][..0] == []; }
  }

  /** Creating a task leaves the completed count as it was: the new task
      is never completed. */
  lemma CompletedCountAfterCreate(s: State)
    requires s.editingIndex.None?
    ensures CompletedCount(Submit(s).tasks) == CompletedCount(s.tasks)
  {
  }

  /** Updating a task drops the completed count by the replaced task's
      share: the new task is never completed. */
  lemma CompletedCountAfterUpdate(s: State, i: nat)
    requires s.editingIndex == Some(i) && i < |s.tasks| && !AllWhitespace(s.val)
    ensures CompletedCount(Submit(s).tasks) + Indicator(s.tasks[i].completed)
      == CompletedCount(s.tasks)
  {
    var ts, r := s.tasks, Submit(s);
    assert r.tasks == ts[i := NewTask(s)];
    CompletedCountUpdate(ts, i, NewTask(s));
  }

  /** The width of the progress bar, in percent of the container:
      `(completed / total) * 100`, with 0 for an empty list. */
  function ProgressPercent(ts: seq<Task>): (p: real)
    ensures 0.0 <= p <= 100.0
    ensures p == 0.0 <==> CompletedCount(ts) == 0
    ensures p == 100.0 <==> |ts| > 0 && CompletedCount(ts) == |ts|
  {
    if |ts| == 0 then 0.0
    else (CompletedCount(ts) as real / |ts| as real) * 100.0
  }
}

=== FILE: walkthrough.dfy ===
/**
  A session with the component, step by step: two tasks added through the
  form, the first completed, the `Completed` filter chosen and the one
  shown row deleted.
 */
module Walkthrough {
  import opened JsString
  import opened TaskList
  import opened TaskView
  import opened Screen

  /** Typing into the three form fields. */
  function Type(s: State, text: string, due: string, p: Priority): State {
    s.(val := text, dueDate := due, priority := p)
  }

  const Milk := Task("Buy milk", false, "2024-01-01", High)
  const Dog := Task("Walk dog", false, "", Low)

  const Done := Task("Buy milk", true, "2024-01-01", High)

  /** Adding "Buy milk" due 2024-01-01 with priority High to the empty list. */
  lemma AddFirst()
    ensures var r := Submit(Type(Initial, "Buy milk", "2024-01-01", High));
      && r.tasks == [Milk] && FormCleared(r) && SameView(Initial, r)
      && CompletedCount(r.tasks) == 0 && ProgressPercent(r.tasks) == 0.0
  {
  }

  /** Then adding "Walk dog" with no date and priority Low. */
  lemma AddSecond(s: State)
    requires s.tasks == [Milk] && FormCleared(s)
    ensures var r := Submit(Type(s, "Walk dog", "", Low));
      r.tasks == [Milk, Dog] && FormCleared(r) && SameView(s, r)
  {
    var t := Type(s, "Walk dog", "", Low);
    assert t.tasks == [Milk] && t.editingIndex.None?;
    assert t.val == "Walk dog";
    assert !AllWhitespace(t.val) by { assert !IsWhitespace(t.val[0]); }
    assert Trim(t.val) != "";
    var r := Submit(t);
    assert r.tasks == [Milk] + [NewTask(t)];
    assert NewTask(t) == Dog;
  }

  /** Then completing the first task: one of two done, half the bar. */
  lemma CompleteFirst(s: State)
    requires s.tasks == [Milk, Dog]
    ensures var r := ToggleComplete(s, 0);
      && r.tasks == [Done, Dog] && SameView(s, r)
      && CompletedCount(r.tasks) == 1 && ProgressPercent(r.tasks) == 50.0
  {
  }

  /** Then choosing the `Completed` filter and deleting the one row shown.
      Its underlying position is 0, so here the handler as written deletes
      the right task, as the corrected one does. */
  lemma DeleteShownRow(s: State)
    requires s.tasks == [Done, Dog] && s.filter == Completed && s.searchQuery == ""
    ensures View(s) == [Done]
    ensures ClickDeleteAsWritten(s, 0).tasks == [Dog]
    ensures ClickDelete(s, 0).tasks == [Dog]
  {
    var ts := s.tasks;
    assert ts[..1] == [Done];
    assert [Done][..0] == [];
    assert Shown(Done, Completed, "") && !Shown(Dog, Completed, "");
    assert FilteredTasks([Done], Completed, "") == [Done];
    assert View(s) == [Done];
    assert ts[..0] + ts[1..] == [Dog];
  }

  /** Four tasks with one completed fill a quarter of the progress bar,
      whichever of the four it is. */
  lemma QuarterProgress(ts: seq<Task>)
    requires |ts| == 4 && CompletedCount(ts) == 1
    ensures ProgressPercent(ts) == 25.0
  {
  }

  /** For instance when the completed task comes first. */
  lemma QuarterProgressFirst(a: Task, b: Task, c: Task, d: Task)
    requires a.completed && !b.completed && !c.completed && !d.completed
    ensures CompletedCount([a, b, c, d]) == 1
    ensures ProgressPercent([a, b, c, d]) == 25.0
  {
    assert [a, b, c, d][..3] == [a, b, c];
    assert [a, b, c][..2] == [a, b];
    assert [a, b][..1] == [a];
    assert [a][..0] == [];
    assert CompletedCount([a]) == 1;
    assert CompletedCount([a, b]) == 1;
    assert CompletedCount([a, b, c]) == 1;
    QuarterProgress([a, b, c, d]);
  }
}
